=== FILE: README.md ===
# blurmybackground: the background-selection state machine

blurmybackground is an X11 agent that shows a sharp image as the root background
while the current virtual desktop has no visible window, and a blurred copy of it
otherwise. It learns about desktops and windows from EWMH (Extended Window Manager
Hints) properties: `_NET_CURRENT_DESKTOP`, `_NET_CLIENT_LIST`, `_NET_ACTIVE_WINDOW`,
`_NET_WM_DESKTOP` and `_NET_WM_STATE` with its `_NET_WM_STATE_HIDDEN` atom.

This project models the agent's decision logic in Dafny and proves properties of it:

- `xtypes.dfy` (`XTypes`) holds the value types. It has the 32-bit integers, with C's
  `int`/`uint32_t` conversions written out. It has the interned EWMH atoms and the
  X event record. A `Server` value holds the X server's answers to every query the
  agent issues; a failed query is a `None` or a window missing from a map.
- `classifier.dfy` (`Classifier`) models `is_task_hidden`.
- `occupancy.dfy` (`Occupancy`) models `is_desktop_empty`.
- `tracker.dfy` (`Tracker`) models `desktop_focus_change` and `task_focus_change`.
- `dispatch.dfy` (`Dispatch`) models the chain that handles one polled event.
  Applying a pixmap is modelled as assigning the `background` field of the state.
- `lifecycle.dfy` (`Lifecycle`) models `handle_signal`, `register_root_events`, the
  command-line check, the two nested loops of `main` and the final restore.
- `scenarios.dfy` (`Scenarios`) has concrete runs where the server reports desktop 1
  and one client window 7. The last two start from the initial state and keep its
  zero-initialised tracked desktop 0.

The event loop is modelled as a sequence of wake-ups. Each wake-up carries the
signals delivered to `handle_signal` since the previous one (SIGHUP, SIGINT and
SIGTERM, the only ones `main` installs it for) and the events then queued. Each event
comes paired with the server answers its handling sees. `run` is tested only
between wake-ups, so every event queued in a wake-up is handled, even when a
signal arrived in the same wake-up.

Some of the behaviour below differs from what a reader might expect. The model follows the code:

- After a `_NET_ACTIVE_WINDOW` notification, the blurred pixmap is applied only when
  the active-window query FAILS (`task_focus_change` returns 1). When the query
  succeeds, only the focused window is recorded and the background stays as it is.
- A refused subscription to the root window's property changes is not fatal. It
  clears `run`, so the loop is skipped, the original pixmap is restored and `main`
  returns 0.
- The tracked desktop is an `int`, but it is compared with each window's
  `uint32_t` desktop. So the failure sentinel -1 is compared as 0xFFFFFFFF, which
  EWMH reserves for windows shown on all desktops. After a failed desktop query,
  visible windows on all desktops count as occupants. The sentinel does not match
  "no window at all".
- A failed `_NET_CLIENT_LIST` query reports the desktop as empty, so the sharp
  image is shown.

## Model

| member | source | states |
|---|---|---|
| XTypes.ToUint32 | blurmybackground.c:183 | the `int` desktop is compared as the `uint32_t` congruent to it modulo 2^32 |
| XTypes.ToInt32 | blurmybackground.c:143 | a desktop number written into the `int` is read back as the `int` with the same 32 bits |
| XTypes.Int32RoundTrip | blurmybackground.c:143 | storing a reported desktop in the `int` and comparing it as `uint32_t` gives back the reported value, and the reverse trip is also the identity |
| Classifier.IsTaskHidden | blurmybackground.c:157-170 | a window is hidden iff its `_NET_WM_STATE` query succeeds and some position of the returned atom list holds `_NET_WM_STATE_HIDDEN` |
| Classifier.ScanTaskHidden | blurmybackground.c:157-170 | the scan returns true iff the `_NET_WM_STATE` query succeeds and `_NET_WM_STATE_HIDDEN` occurs in the atom list; a true result comes with a position of that atom |
| Classifier.FailedOrEmptyIsVisible | blurmybackground.c:159-169 | a failed query and an empty atom list both classify the window as not hidden |
| Classifier.HiddenDependsOnlyOnMembership | blurmybackground.c:159-169 | two servers whose `_NET_WM_STATE` queries for a window both fail, or both list the same atoms in any order and with any repetition, classify the window alike |
| Occupancy.Occupies | blurmybackground.c:182-184 | a window occupies the tracked desktop iff its `_NET_WM_DESKTOP` query succeeds, the answer is congruent to the tracked `int` modulo 2^32 (the unsigned comparison), and the window is not hidden |
| Occupancy.NoOccupant | blurmybackground.c:180-189 | the early-exit scan over the list finds no occupant iff every listed window fails to occupy the desktop |
| Occupancy.IsDesktopEmpty | blurmybackground.c:171-194 | a failed client-list query reports empty; otherwise the desktop is non-empty iff some listed window has a successful desktop query whose answer equals the tracked desktop as `uint32_t` and is not hidden |
| Occupancy.ScanDesktopEmpty | blurmybackground.c:171-194 | the loop with early return computes the same verdict as the quantified definition, and it only reports non-empty after a successful client-list query |
| Occupancy.EmptyUnderPermutation | blurmybackground.c:180-189 | reordering `_NET_CLIENT_LIST` never changes the verdict |
| Occupancy.FailedDesktopQueriesAreSkipped | blurmybackground.c:182-188 | dropping the windows whose `_NET_WM_DESKTOP` query fails never changes the verdict |
| Occupancy.UnknownDesktopMatchesAllDesktops | blurmybackground.c:182-184 | with tracked desktop -1, a window occupies iff its desktop is 0xFFFFFFFF (EWMH all desktops) and it is not hidden |
| Occupancy.VisibleWindowOccupies | blurmybackground.c:182-186 | a listed window that is on the tracked desktop and not hidden makes the desktop non-empty |
| Tracker.DesktopFocusChange | blurmybackground.c:142-146 | on success the tracked desktop compares equal to the reported one; on failure it compares equal to 0xFFFFFFFF |
| Tracker.SentinelIsAllDesktops | blurmybackground.c:143-144 | a failed query and a reported 0xFFFFFFFF leave the same tracked value, -1 |
| Tracker.DesktopTrackingIsInjective | blurmybackground.c:143 | different reported desktops are tracked as different values |
| Tracker.TaskFocusChange | blurmybackground.c:147-155 | returns 0 iff the active-window query succeeds and 1 otherwise; on success it records the active window and on failure it keeps the old one |
| Dispatch.Initial | blurmybackground.c:243 | right after setup the original pixmap is applied (:243), and the tracked desktop and focused window are 0, as the zero-initialised statics at blurmybackground.c:27-28 leave them |
| Dispatch.BranchOf | blurmybackground.c:255-291 | only a property notification takes an arm; the desktop arm is taken iff the atom is `_NET_CURRENT_DESKTOP`; the wm-state arm needs `_NET_WM_STATE` off the root window; `_NET_WM_STATE` on the root is ignored |
| Dispatch.Step | blurmybackground.c:255-291 | only the desktop arm moves the tracked desktop, only the active-window arm moves the focused window, and an ignored event changes nothing; what each arm applies is stated by the Dispatch lemmas below |
| Dispatch.BranchOfDistinctAtoms | blurmybackground.c:255-280 | with distinct atoms, each arm of the chain is taken iff the event is a property notification carrying that arm's atom; `_NET_WM_STATE` only counts off the root window; every other event is ignored |
| Dispatch.ReEvaluatingEventsFollowOccupancy | blurmybackground.c:256-287 | desktop-switch, client-list and non-root wm-state events apply the original pixmap iff the desktop is empty, else the blurred one; only a desktop switch moves the desktop, to the reported value or to the sentinel |
| Dispatch.ActiveWindowBlursOnlyOnFailedQuery | blurmybackground.c:275-278 | an active-window event blurs iff the query fails; on success only the focused window changes |
| Dispatch.IgnoredEventsChangeNothing | blurmybackground.c:255-291 | non-property events, other atoms and `_NET_WM_STATE` on the root leave the whole state unchanged |
| Dispatch.DesktopMovesOnlyOnDesktopSwitch | blurmybackground.c:258-259 | the tracked desktop changes only on a `_NET_CURRENT_DESKTOP` property notification |
| Dispatch.ReEvaluationIsIdempotent | blurmybackground.c:258-287 | handling a re-evaluating event twice against the same server answers ends where handling it once does |
| Dispatch.SwitchThenClientListAgree | blurmybackground.c:258-273 | a desktop switch followed by a client-list change against unchanged answers selects the same pixmap both times |
| Lifecycle.HandleSignal | blurmybackground.c:93-96 | a signal can only clear `run`, and it clears it iff `run` was set and the signal is SIGHUP, SIGINT or SIGTERM |
| Lifecycle.HandleSignals | blurmybackground.c:93-96 | after a series of signals `run` holds iff it held before and none of them was SIGHUP, SIGINT or SIGTERM |
| Lifecycle.RegisterRootEvents | blurmybackground.c:99-103 | a refused root subscription clears `run`; an accepted one leaves it as it was |
| Lifecycle.ParseInvocation | blurmybackground.c:225-235 | the invocation is accepted iff there are exactly three arguments and the second is `-i`; the third is then the image path |
| Lifecycle.Drain | blurmybackground.c:253-293 | draining a queue with no `_NET_CURRENT_DESKTOP` notification leaves the tracked desktop unchanged |
| Lifecycle.Loop | blurmybackground.c:248-295 | the loop is still running after a series of wake-ups iff it was running and no wake-up carried SIGHUP, SIGINT or SIGTERM; a loop that is not running consumes nothing |
| Lifecycle.RunLoop | blurmybackground.c:248-295 | the nested `while` loops compute the same agent state as the recursive definition |
| Lifecycle.DesktopKeptWithoutSwitch | blurmybackground.c:248-295 | over any run of the loop, the tracked desktop moves only through `_NET_CURRENT_DESKTOP` notifications |
| Lifecycle.RunAgent | blurmybackground.c:224-299 | a bad invocation is a usage error with `EXIT_FAILURE`; an accepted one returns 0 with the original pixmap restored iff the root subscription was refused or a terminating signal arrived; otherwise it is still running |
| Scenarios.VisibleWindowBlurs | blurmybackground.c:258-265 | desktop 1 with a visible window on desktop 1 gives the blurred pixmap |
| Scenarios.HiddenWindowKeepsOriginal | blurmybackground.c:258-265 | desktop 1 with only a hidden window on it gives the original pixmap |
| Scenarios.OtherDesktopKeepsOriginal | blurmybackground.c:258-265 | desktop 1 with the only window on desktop 2 gives the original pixmap |
| Scenarios.ResolvedFocusLeavesBackground | blurmybackground.c:275-278 | a resolved active window records that window and keeps the original pixmap |
| Scenarios.TerminateRestoresOriginal | blurmybackground.c:248-298 | SIGTERM in the same wake-up as a blurring event ends the run with status 0 and the original pixmap |

## Left out

- Pixmap creation (`create_bg_pixmap`), the root-visual lookup (`get_root_visual_type`), the blur (`get_blur_image_path`), `setup` and `cleanup`: these are calls into xcb, cairo and ImageMagick with no decision logic. Applying a pixmap is an assignment, and setup is assumed to succeed. Setup's own fatal errors exit with `EXIT_FAILURE` through `err`; the ImageMagick failures in `get_blur_image_path` exit with `exit(-1)` (blurmybackground.c:117); neither is modelled.
- The X requests inside `set_pixmap_background` are not modelled; only which pixmap is applied is.
- `select` and the file-descriptor polling are not modelled. A wake-up stands for one return of `select` followed by polling until the queue is empty. A failed `select` (for example one interrupted by a signal) is a wake-up like any other: its result -1 passes the `if`, the descriptor set is left as it was, and whatever events are then queued are handled, possibly none.
- Asynchronous signal delivery is not modelled. A signal is an input that the model applies to `run` at the end of its wake-up, which is when the loop condition can first see it.
- A signal that arrives between installing the handlers and `run = 1` is overwritten by that assignment. This window is not modelled; startup signals are taken to arrive after `run` is set.
- The subscription `task_focus_change` makes on the newly active window, and the message it logs when that subscription fails, are I/O and are not modelled.
- Each event is handled against one snapshot of the server's answers. The server changing between the queries of a single handling is not modelled.
- Lifecycle.Loop: signals other than SIGHUP, SIGINT and SIGTERM have no handler and keep their default action; one that terminates the process ends it without the restore and without status 0. Such signals are not modelled: a wake-up only carries signals delivered to `handle_signal`.
- Lifecycle.RunAgent: a process killed by a signal without a handler (for example SIGUSR1 or SIGALRM) does not reach the restore at blurmybackground.c:296 and does not exit with 0. This outcome is not modelled; `Running` means no handled terminating signal has arrived yet.
- Lifecycle.ParseInvocation: compares `argv[1]` with `-i` by string equality, not by `strcmp`. The two agree on C strings, which never contain NUL characters.
- Lifecycle.ParseInvocation: does not model the `strcat` into the 256-byte `MAXLEN` buffer. A path of 256 or more characters overflows that buffer in the source, and the model accepts it.
- The unreleased `_NET_WM_STATE` reply on the early return at blurmybackground.c:163, and the temporary-file path at blurmybackground.c:30, are memory and file I/O concerns and are not modelled.

=== FILE: classifier.dfy ===
/** The window-state classifier, `is_task_hidden`: a window is hidden when its
    `_NET_WM_STATE` query succeeds and the returned atoms include
    `_NET_WM_STATE_HIDDEN`. */
module Classifier {
  import opened XTypes

  /** Whether a `_NET_WM_STATE` reply marks its window hidden. */
  predicate HiddenIn(reply: Option<seq<Atom>>, hidden: Atom)
  {
    reply.Some? && hidden in reply.value
  }

  /** `is_task_hidden(w)` as a value: the reference the scan below is held to. */
  predicate IsTaskHidden(srv: Server, atoms: EwmhAtoms, w: Window)
    ensures IsTaskHidden(srv, atoms, w) <==>
      w in srv.wmState && exists i :: 0 <= i < |srv.wmState[w]| && srv.wmState[w][i] == atoms.wmStateHidden
  {
    HiddenIn(srv.WmStateOf(w), atoms.wmStateHidden)
  }

  /** The scan of `is_task_hidden`: walk the atom list and stop at the first
      `_NET_WM_STATE_HIDDEN`. */
  method ScanTaskHidden(srv: Server, atoms: EwmhAtoms, w: Window) returns (hidden: bool)
    ensures hidden <==> IsTaskHidden(srv, atoms, w)
    ensures hidden ==> exists i :: 0 <= i < |srv.wmState[w]| && srv.wmState[w][i] == atoms.wmStateHidden
  {
    hidden := false;
    var reply := srv.WmStateOf(w);
    if reply.Some? {
      var list := reply.value;
      if |list| > 0 {
        var i := 0;
        while i < |list|
          invariant 0 <= i <= |list|
          invariant forall j :: 0 <= j < i ==> list[j] != atoms.wmStateHidden
        {
          if list[i] == atoms.wmStateHidden {
            return true;
          }
          i := i + 1;
        }
      }
    }
  }

  /** A failed query and an empty atom list both classify the window as visible. */
  lemma FailedOrEmptyIsVisible(hidden: Atom)
    ensures !HiddenIn(None, hidden)
    ensures !HiddenIn(Some([]), hidden)
  {
  }

  /** Only membership matters: two servers whose `_NET_WM_STATE` queries for a
      window both fail, or both list the same atoms in any order and with any
      repetition, classify that window alike. */
  lemma HiddenDependsOnlyOnMembership(srv1: Server, srv2: Server, atoms: EwmhAtoms, w: Window)
    requires w in srv1.wmState <==> w in srv2.wmState
    requires w in srv1.wmState && w in srv2.wmState ==>
      forall a :: a in srv1.wmState[w] <==> a in srv2.wmState[w]
    ensures IsTaskHidden(srv1, atoms, w) <==> IsTaskHidden(srv2, atoms, w)
  {
  }
}

=== FILE: dispatch.dfy ===
/** The dispatch step of the agent's event loop: one event, with the server's
    answers to the queries its handling issues, takes the tracked state to a new
    one. Applying a background is an assignment to `background`. */
module Dispatch {
  import opened XTypes
  import opened Occupancy
  import opened Tracker

  /** The two pixmaps built at startup; the root shows one of them. */
  datatype Background = Original | Blurred

  /** The agent's mutable globals that the loop reads and writes. */
  datatype State = State(desktop: i32, focused: Window, background: Background)

  /** The screen's root window and the interned EWMH atoms, fixed for the run. */
  datatype Env = Env(root: Window, atoms: EwmhAtoms)

  /** `current_desktop` and `focused_task` are zero-initialised statics
      (blurmybackground.c:27-28), and the original pixmap is applied once setup is
      done (blurmybackground.c:243). */
  function Initial(): (s: State)
    ensures s.background == Original && s.desktop == 0 && s.focused == 0
  {
    State(0, 0, Original)
  }

  /** The arm of the dispatch chain an event takes. */
  datatype Branch = DesktopSwitch | ClientListChange | ActiveWindowChange | WindowStateChange | Ignored

  /** The chain of tests on a polled event, in the code's order: the response type,
      then the atom against `_NET_CURRENT_DESKTOP`, `_NET_CLIENT_LIST`,
      `_NET_ACTIVE_WINDOW`, and `_NET_WM_STATE` for a window other than the root. */
  function BranchOf(env: Env, ev: XEvent): (b: Branch)
    ensures b != Ignored ==> ev.Kind() == PROPERTY_NOTIFY
    ensures b == DesktopSwitch <==> ev.Kind() == PROPERTY_NOTIFY && ev.atom == env.atoms.currentDesktop
    ensures b == WindowStateChange ==> ev.atom == env.atoms.wmState && ev.window != env.root
    ensures (&& ev.window == env.root && ev.atom == env.atoms.wmState
             && ev.atom != env.atoms.currentDesktop && ev.atom != env.atoms.clientList
             && ev.atom != env.atoms.activeWindow) ==> b == Ignored
  {
    if ev.Kind() != PROPERTY_NOTIFY then Ignored
    else if ev.atom == env.atoms.currentDesktop then DesktopSwitch
    else if ev.atom == env.atoms.clientList then ClientListChange
    else if ev.atom == env.atoms.activeWindow then ActiveWindowChange
    else if ev.window != env.root && ev.atom == env.atoms.wmState then WindowStateChange
    else Ignored
  }

  /** The pixmap chosen after an occupancy evaluation. */
  function Select(empty: bool): Background
  {
    if empty then Original else Blurred
  }

  /** Handling of one polled event; `srv` answers the queries it issues. */
  function Step(env: Env, s: State, ev: XEvent, srv: Server): (s': State)
    ensures s'.desktop != s.desktop ==> BranchOf(env, ev) == DesktopSwitch
    ensures s'.focused != s.focused ==> BranchOf(env, ev) == ActiveWindowChange
    ensures s' != s ==> BranchOf(env, ev) != Ignored
  {
    match BranchOf(env, ev)
    case DesktopSwitch =>
      var d := DesktopFocusChange(srv.currentDesktop);
      s.(desktop := d, background := Select(IsDesktopEmpty(srv, env.atoms, d)))
    case ClientListChange =>
      s.(background := Select(IsDesktopEmpty(srv, env.atoms, s.desktop)))
    case ActiveWindowChange =>
      var r := TaskFocusChange(srv.activeWindow, s.focused);
      if r.status != 0 then s.(focused := r.focused, background := Blurred)
      else s.(focused := r.focused)
    case WindowStateChange =>
      s.(background := Select(IsDesktopEmpty(srv, env.atoms, s.desktop)))
    case Ignored =>
      s
  }

  /** With distinct atoms the order of the tests does not matter: each arm is
      taken exactly when the event carries that arm's atom. */
  lemma BranchOfDistinctAtoms(env: Env, ev: XEvent)
    requires env.atoms.Distinct()
    ensures BranchOf(env, ev) == DesktopSwitch <==>
      ev.Kind() == PROPERTY_NOTIFY && ev.atom == env.atoms.currentDesktop
    ensures BranchOf(env, ev) == ClientListChange <==>
      ev.Kind() == PROPERTY_NOTIFY && ev.atom == env.atoms.clientList
    ensures BranchOf(env, ev) == ActiveWindowChange <==>
      ev.Kind() == PROPERTY_NOTIFY && ev.atom == env.atoms.activeWindow
    ensures BranchOf(env, ev) == WindowStateChange <==>
      ev.Kind() == PROPERTY_NOTIFY && ev.atom == env.atoms.wmState && ev.window != env.root
    ensures BranchOf(env, ev) == Ignored <==>
      ev.Kind() != PROPERTY_NOTIFY
      || (ev.atom == env.atoms.wmState && ev.window == env.root)
      || (ev.atom != env.atoms.currentDesktop && ev.atom != env.atoms.clientList
          && ev.atom != env.atoms.activeWindow && ev.atom != env.atoms.wmState)
  {
  }

  /** Whether an arm re-evaluates occupancy. */
  predicate ReEvaluates(b: Branch)
  {
    b == DesktopSwitch || b == ClientListChange || b == WindowStateChange
  }

  /** A desktop switch, a client-list change, or a state change on a non-root
      window applies the original pixmap iff the (refreshed) tracked desktop is
      empty, and the blurred one otherwise; the focused window is untouched. */
  lemma ReEvaluatingEventsFollowOccupancy(env: Env, s: State, ev: XEvent, srv: Server)
    requires ReEvaluates(BranchOf(env, ev))
    ensures var s' := Step(env, s, ev, srv);
      && (s'.background == Original <==> IsDesktopEmpty(srv, env.atoms, s'.desktop))
      && s'.focused == s.focused
    ensures BranchOf(env, ev) == DesktopSwitch ==>
      ToUint32(Step(env, s, ev, srv).desktop) ==
        (if srv.currentDesktop.Some? then srv.currentDesktop.value else ALL_DESKTOPS)
    ensures BranchOf(env, ev) != DesktopSwitch ==> Step(env, s, ev, srv).desktop == s.desktop
  {
  }

  /** An active-window change applies the blurred pixmap exactly when the
      `_NET_ACTIVE_WINDOW` query fails; when it succeeds only the focused window
      moves and the background stays as it was. The desktop is untouched. */
  lemma ActiveWindowBlursOnlyOnFailedQuery(env: Env, s: State, ev: XEvent, srv: Server)
    requires BranchOf(env, ev) == ActiveWindowChange
    ensures srv.activeWindow.None? ==> Step(env, s, ev, srv) == s.(background := Blurred)
    ensures srv.activeWindow.Some? ==>
      Step(env, s, ev, srv) == s.(focused := srv.activeWindow.value)
  {
  }

  /** Events of another kind, other atoms, and `_NET_WM_STATE` changes on the root
      window leave the state as it was. */
  lemma IgnoredEventsChangeNothing(env: Env, s: State, ev: XEvent, srv: Server)
    requires ev.Kind() != PROPERTY_NOTIFY
      || (ev.atom != env.atoms.currentDesktop && ev.atom != env.atoms.clientList
          && ev.atom != env.atoms.activeWindow
          && (ev.atom != env.atoms.wmState || ev.window == env.root))
    ensures Step(env, s, ev, srv) == s
  {
  }

  /** Only a `_NET_CURRENT_DESKTOP` notification moves the tracked desktop. */
  lemma DesktopMovesOnlyOnDesktopSwitch(env: Env, s: State, ev: XEvent, srv: Server)
    ensures Step(env, s, ev, srv).desktop != s.desktop ==>
      ev.Kind() == PROPERTY_NOTIFY && ev.atom == env.atoms.currentDesktop
  {
  }

  /** Re-applying is harmless: handling the same re-evaluating event twice against
      the same server answers ends where handling it once does. */
  lemma ReEvaluationIsIdempotent(env: Env, s: State, ev: XEvent, srv: Server)
    requires ReEvaluates(BranchOf(env, ev))
    ensures Step(env, Step(env, s, ev, srv), ev, srv) == Step(env, s, ev, srv)
  {
  }

  /** A desktop switch followed by a client-list change, with nothing changed on
      the server in between, selects the same pixmap both times. */
  lemma SwitchThenClientListAgree(env: Env, s: State, e1: XEvent, e2: XEvent, srv: Server)
    requires BranchOf(env, e1) == DesktopSwitch && BranchOf(env, e2) == ClientListChange
    ensures Step(env, Step(env, s, e1, srv), e2, srv) == Step(env, s, e1, srv)
  {
  }
}

=== FILE: lifecycle.dfy ===
/** The agent's lifecycle in `main`: the command-line check, the `run` flag and
    what clears it, the event loop that drains every queued event after each
    wake-up, and the restore of the original pixmap on the way out. */
module Lifecycle {
  import opened XTypes
  import opened Dispatch

  /** Signal numbers of SIGHUP, SIGINT and SIGTERM on Linux. */
  const SIGHUP: int := 1
  const SIGINT: int := 2
  const SIGTERM: int := 15

  /** `EXIT_FAILURE`, the status `err` exits with. */
  const EXIT_FAILURE: int := 1

  /** The signals `handle_signal` acts on. */
  predicate Terminating(sig: int)
  {
    sig == SIGTERM || sig == SIGINT || sig == SIGHUP
  }

  /** The signals `main` installs `handle_signal` for; every other signal keeps
      its default action. */
  type Handled = sig: int | Terminating(sig) witness SIGTERM

  /** `handle_signal`: the new value of `run` after delivery of `sig`. */
  function HandleSignal(run: bool, sig: int): (run': bool)
    ensures run' ==> run
    ensures run' != run <==> run && Terminating(sig)
  {
    if Terminating(sig) then false else run
  }

  /** Delivery of several signals, one after the other. */
  function HandleSignals(run: bool, sigs: seq<int>): (run': bool)
    ensures run' <==> run && forall i :: 0 <= i < |sigs| ==> !Terminating(sigs[i])
  {
    if |sigs| == 0 then run else HandleSignals(HandleSignal(run, sigs[0]), sigs[1..])
  }

  /** `register_root_events`: a refused subscription to the root's property
      changes clears `run`; it does not stop the process. */
  function RegisterRootEvents(run: bool, subscribed: bool): (run': bool)
    ensures run' ==> run
    ensures subscribed ==> run' == run
    ensures !subscribed ==> !run'
  {
    if subscribed then run else false
  }

  /** The outcome of the command-line check. */
  datatype Invocation = Accepted(imagePath: string) | Rejected

  /** The check at the top of `main`; `argv` holds the program name first. */
  function ParseInvocation(argv: seq<string>): (inv: Invocation)
    ensures inv.Accepted? <==> |argv| == 3 && argv[1] == "-i"
    ensures inv.Accepted? ==> inv.imagePath == argv[2]
  {
    if |argv| != 3 then Rejected
    else if argv[1] != "-i" then Rejected
    else Accepted(argv[2])
  }

  /** An event polled from the connection, with the answers the server gives to
      the queries its handling issues. */
  datatype Delivery = Delivery(event: XEvent, server: Server)

  /** One return from `select`: the signals delivered to `handle_signal` since the
      last one, and the events then queued on the connection. */
  datatype Wake = Wake(signals: seq<Handled>, deliveries: seq<Delivery>)

  /** The inner loop that polls events until the queue is empty. */
  function Drain(env: Env, s: State, ds: seq<Delivery>): (s': State)
    ensures (forall i :: 0 <= i < |ds| ==> BranchOf(env, ds[i].event) != DesktopSwitch) ==>
      s'.desktop == s.desktop
    decreases |ds|
  {
    if |ds| == 0 then s
    else Drain(env, Step(env, s, ds[0].event, ds[0].server), ds[1..])
  }

  datatype Agent = Agent(run: bool, state: State)

  /** A wake-up that carries one of the signals `handle_signal` acts on. */
  predicate StopsLoop(w: Wake)
  {
    exists i :: 0 <= i < |w.signals| && Terminating(w.signals[i])
  }

  /** The outer loop: while `run` holds, wait for a wake-up and drain the queue.
      `run` is tested only between wake-ups, so events queued with a signal are
      still handled. The result still runs iff no wake-up stopped it. */
  function Loop(env: Env, a: Agent, wakes: seq<Wake>): (r: Agent)
    ensures r.run <==> a.run && forall i :: 0 <= i < |wakes| ==> !StopsLoop(wakes[i])
    ensures !a.run ==> r == a
    decreases |wakes|
  {
    if !a.run || |wakes| == 0 then a
    else
      var w := wakes[0];
      var s := Drain(env, a.state, w.deliveries);
      Loop(env, Agent(HandleSignals(a.run, w.signals), s), wakes[1..])
  }

  /** The loop of `main` as statements: an outer `while (run)` over wake-ups and an
      inner loop over queued events. */
  method RunLoop(env: Env, a: Agent, wakes: seq<Wake>) returns (r: Agent)
    ensures r == Loop(env, a, wakes)
  {
    var run := a.run;
    var s := a.state;
    var k := 0;
    while run && k < |wakes|
      invariant 0 <= k <= |wakes|
      invariant Loop(env, Agent(run, s), wakes[k..]) == Loop(env, a, wakes)
    {
      var w := wakes[k];
      ghost var s0 := s;
      var j := 0;
      while j < |w.deliveries|
        invariant 0 <= j <= |w.deliveries|
        invariant Drain(env, s, w.deliveries[j..]) == Drain(env, s0, w.deliveries)
      {
        s := Step(env, s, w.deliveries[j].event, w.deliveries[j].server);
        j := j + 1;
      }
      run := HandleSignals(run, w.signals);
      k := k + 1;
    }
    r := Agent(run, s);
  }

  /** A wake-up none of whose events is a `_NET_CURRENT_DESKTOP` notification. */
  predicate KeepsDesktop(env: Env, w: Wake)
  {
    forall j :: 0 <= j < |w.deliveries| ==> BranchOf(env, w.deliveries[j].event) != DesktopSwitch
  }

  /** Across the whole loop, the tracked desktop moves only through
      `_NET_CURRENT_DESKTOP` notifications. */
  lemma {:induction false} DesktopKeptWithoutSwitch(env: Env, a: Agent, wakes: seq<Wake>)
    requires forall i :: 0 <= i < |wakes| ==> KeepsDesktop(env, wakes[i])
    ensures Loop(env, a, wakes).state.desktop == a.state.desktop
    decreases |wakes|
  {
    if a.run && |wakes| > 0 {
      var w := wakes[0];
      assert KeepsDesktop(env, w);
      var s := Drain(env, a.state, w.deliveries);
      DesktopKeptWithoutSwitch(env, Agent(HandleSignals(a.run, w.signals), s), wakes[1..]);
    }
  }

  /** How a run of the agent looks after a finite stretch of wake-ups: refused at
      the command line, still looping, or returned from `main`. */
  datatype Outcome =
    | UsageError(exitCode: int)
    | Running(agent: Agent)
    | Exited(exitCode: int, state: State)

  /** `main` from the argument check to `return 0`. `startupSignals` are delivered
      to `handle_signal` after `run` is set and before the loop is entered; `subscribed` is whether the X
      server accepted the root subscription. */
  function RunAgent(env: Env, argv: seq<string>, startupSignals: seq<Handled>, subscribed: bool, wakes: seq<Wake>): (o: Outcome)
    ensures o.UsageError? <==> ParseInvocation(argv).Rejected?
    ensures o.UsageError? ==> o.exitCode == EXIT_FAILURE
    ensures o.Exited? ==> o.exitCode == 0 && o.state.background == Original
    ensures o.Exited? <==>
      && ParseInvocation(argv).Accepted?
      && (|| !subscribed
          || (exists i :: 0 <= i < |startupSignals| && Terminating(startupSignals[i]))
          || (exists i :: 0 <= i < |wakes| && StopsLoop(wakes[i])))
  {
    match ParseInvocation(argv)
    case Rejected => UsageError(EXIT_FAILURE)
    case Accepted(_) =>
      var run := HandleSignals(true, startupSignals);
      var a := Loop(env, Agent(RegisterRootEvents(run, subscribed), Initial()), wakes);
      if a.run then Running(a) else Exited(0, a.state.(background := Original))
  }
}

=== FILE: occupancy.dfy ===
/** The occupancy evaluator, `is_desktop_empty`: the tracked desktop is occupied
    when some window of `_NET_CLIENT_LIST` sits on it and is not hidden. The desktop
    numbers are compared as `uint32_t`, so the tracked `int` is converted first. */
module Occupancy {
  import opened XTypes
  import opened Classifier

  /** A listed window occupies the tracked desktop: its `_NET_WM_DESKTOP` query
      succeeds, the answer equals the tracked desktop as `uint32_t`, and the window
      is not hidden. A window whose desktop query fails is skipped. */
  predicate Occupies(srv: Server, atoms: EwmhAtoms, desktop: i32, w: Window)
    ensures Occupies(srv, atoms, desktop, w) <==>
      && w in srv.wmDesktop
      && (srv.wmDesktop[w] as int - desktop as int) % TWO_32 == 0
      && !IsTaskHidden(srv, atoms, w)
  {
    match srv.WmDesktopOf(w)
    case None => false
    case Some(d) => d == ToUint32(desktop) && !IsTaskHidden(srv, atoms, w)
  }

  /** The scan with early exit over a window list, stated as a universal. */
  function NoOccupant(srv: Server, atoms: EwmhAtoms, desktop: i32, ws: seq<Window>): (r: bool)
    ensures r <==> forall i :: 0 <= i < |ws| ==> !Occupies(srv, atoms, desktop, ws[i])
  {
    if |ws| == 0 then true
    else if Occupies(srv, atoms, desktop, ws[0]) then false
    else NoOccupant(srv, atoms, desktop, ws[1..])
  }

  /** `is_desktop_empty()` as a value. A failed client-list query reports an empty
      desktop; otherwise the desktop is non-empty exactly when a listed window
      occupies it. */
  function IsDesktopEmpty(srv: Server, atoms: EwmhAtoms, desktop: i32): (empty: bool)
    ensures srv.clientList.None? ==> empty
    ensures srv.clientList.Some? ==>
      (!empty <==> exists i :: 0 <= i < |srv.clientList.value| && Occupies(srv, atoms, desktop, srv.clientList.value[i]))
  {
    match srv.clientList
    case None => true
    case Some(ws) => NoOccupant(srv, atoms, desktop, ws)
  }

  /** The loop of `is_desktop_empty`, returning as soon as a listed window on the
      tracked desktop is found not hidden. */
  method ScanDesktopEmpty(srv: Server, atoms: EwmhAtoms, desktop: i32) returns (empty: bool)
    ensures empty == IsDesktopEmpty(srv, atoms, desktop)
    ensures !empty ==> srv.clientList.Some?
  {
    match srv.clientList {
      case None =>
        return true;
      case Some(wins) =>
        var i := 0;
        while i < |wins|
          invariant 0 <= i <= |wins|
          invariant forall j :: 0 <= j < i ==> !Occupies(srv, atoms, desktop, wins[j])
        {
          var reply := srv.WmDesktopOf(wins[i]);
          if reply.Some? && reply.value == ToUint32(desktop) {
            var hidden := ScanTaskHidden(srv, atoms, wins[i]);
            if !hidden {
              return false;
            }
          }
          i := i + 1;
        }
        return true;
    }
  }

  /** The order of `_NET_CLIENT_LIST` does not matter: a permutation of the list
      yields the same verdict. */
  lemma EmptyUnderPermutation(srv: Server, atoms: EwmhAtoms, desktop: i32, ws: seq<Window>, ws': seq<Window>)
    requires multiset(ws) == multiset(ws')
    ensures NoOccupant(srv, atoms, desktop, ws) == NoOccupant(srv, atoms, desktop, ws')
  {
    forall i | 0 <= i < |ws'|
      ensures ws'[i] in ws
    {
      assert ws'[i] in multiset(ws');
    }
    forall i | 0 <= i < |ws|
      ensures ws[i] in ws'
    {
      assert ws[i] in multiset(ws);
    }
  }

  /** The windows of a list whose `_NET_WM_DESKTOP` query succeeds. */
  function Answered(srv: Server, ws: seq<Window>): (r: seq<Window>)
    ensures forall w :: w in r <==> w in ws && srv.WmDesktopOf(w).Some?
  {
    if |ws| == 0 then []
    else if srv.WmDesktopOf(ws[0]).Some? then [ws[0]] + Answered(srv, ws[1..])
    else Answered(srv, ws[1..])
  }

  /** Windows whose desktop query fails are skipped: dropping them from the list
      leaves the verdict unchanged. */
  lemma {:induction false} FailedDesktopQueriesAreSkipped(srv: Server, atoms: EwmhAtoms, desktop: i32, ws: seq<Window>)
    ensures NoOccupant(srv, atoms, desktop, Answered(srv, ws)) == NoOccupant(srv, atoms, desktop, ws)
  {
    if |ws| > 0 {
      FailedDesktopQueriesAreSkipped(srv, atoms, desktop, ws[1..]);
      if srv.WmDesktopOf(ws[0]).Some? {
        assert Answered(srv, ws)[1..] == Answered(srv, ws[1..]);
      }
    }
  }

  /** After a failed `_NET_CURRENT_DESKTOP` query the tracked desktop is -1, which
      the unsigned comparison turns into 0xFFFFFFFF: exactly the visible windows
      EWMH places on all desktops then count as occupants, and no others. */
  lemma UnknownDesktopMatchesAllDesktops(srv: Server, atoms: EwmhAtoms, w: Window)
    ensures Occupies(srv, atoms, -1, w) <==>
      srv.WmDesktopOf(w) == Some(ALL_DESKTOPS) && !IsTaskHidden(srv, atoms, w)
  {
  }

  /** A listed, visible window on the tracked desktop makes the desktop non-empty. */
  lemma VisibleWindowOccupies(srv: Server, atoms: EwmhAtoms, desktop: i32, w: Window)
    requires srv.clientList.Some? && w in srv.clientList.value
    requires srv.WmDesktopOf(w) == Some(ToUint32(desktop))
    ensures !IsTaskHidden(srv, atoms, w) ==> !IsDesktopEmpty(srv, atoms, desktop)
  {
    var ws := srv.clientList.value;
    if !IsTaskHidden(srv, atoms, w) {
      var i :| 0 <= i < |ws| && ws[i] == w;
      assert Occupies(srv, atoms, desktop, ws[i]);
    }
  }
}

=== FILE: scenarios.dfy ===
/** Concrete runs of the model: the server reports desktop 1 and one client
    window 7. The last two runs start from the initial state, whose tracked
    desktop is the zero-initialised 0. */
module Scenarios {
  import opened XTypes
  import opened Classifier
  import opened Occupancy
  import opened Dispatch
  import opened Lifecycle

  const Atoms: EwmhAtoms := EwmhAtoms(301, 302, 303, 304, 305)
  const Root: Window := 0x100
  const AgentEnv: Env := Env(Root, Atoms)

  /** A property notification for `atom` on the root window. */
  function RootNotify(atom: Atom): XEvent
  {
    XEvent(PROPERTY_NOTIFY as u8, Root, atom)
  }

  /** Desktop 1 is current and window 7 sits on desktop `d` with state atoms `st`. */
  function OneWindow(d: u32, st: seq<Atom>): Server
  {
    Server(Some(1), Some(7), Some([7]), map[7 := d], map[7 := st])
  }

  /** A visible window on the current desktop blurs the background. */
  lemma VisibleWindowBlurs(s: State)
    ensures Step(AgentEnv, s, RootNotify(Atoms.currentDesktop), OneWindow(1, [])).background == Blurred
  {
    var srv := OneWindow(1, []);
    assert Occupies(srv, Atoms, 1, 7);
  }

  /** A hidden window does not count: the original background is applied. */
  lemma HiddenWindowKeepsOriginal(s: State)
    ensures Step(AgentEnv, s, RootNotify(Atoms.currentDesktop), OneWindow(1, [Atoms.wmStateHidden])).background == Original
  {
    var srv := OneWindow(1, [Atoms.wmStateHidden]);
    assert IsTaskHidden(srv, Atoms, 7);
  }

  /** A window on another desktop does not count either. */
  lemma OtherDesktopKeepsOriginal(s: State)
    ensures Step(AgentEnv, s, RootNotify(Atoms.currentDesktop), OneWindow(2, [])).background == Original
  {
  }

  /** A successful `_NET_ACTIVE_WINDOW` query changes the focused window but
      leaves the background, here the original one, as it was. */
  lemma ResolvedFocusLeavesBackground()
    ensures Step(AgentEnv, Initial(), RootNotify(Atoms.activeWindow), OneWindow(1, [])) == State(0, 7, Original)
  {
  }

  /** SIGTERM arriving while the loop runs ends it with the original pixmap back
      on the root and status 0, even after a blurring event in the same wake-up. */
  lemma TerminateRestoresOriginal()
    ensures RunAgent(AgentEnv, ["blur", "-i", "img.png"], [], true,
                     [Wake([SIGTERM], [Delivery(RootNotify(Atoms.clientList), OneWindow(0, []))])])
            == Exited(0, State(0, 0, Original))
  {
    var srv := OneWindow(0, []);
    var w := Wake([SIGTERM], [Delivery(RootNotify(Atoms.clientList), srv)]);
    assert Occupies(srv, Atoms, 0, 7);
    var s := Step(AgentEnv, Initial(), RootNotify(Atoms.clientList), srv);
    assert s == State(0, 0, Blurred);
    assert Drain(AgentEnv, Initial(), w.deliveries) == s;
    assert HandleSignals(true, w.signals) == false;
    assert Loop(AgentEnv, Agent(true, Initial()), [w]) == Loop(AgentEnv, Agent(false, s), []);
  }
}

=== FILE: tracker.dfy ===
/** The focus and desktop trackers, `desktop_focus_change` and `task_focus_change`:
    each refreshes one tracked value from one EWMH query on the root window. */
module Tracker {
  import opened XTypes

  /** `desktop_focus_change`: the new value of `current_desktop`. A successful
      `_NET_CURRENT_DESKTOP` reply is stored through a `uint32_t` pointer into the
      `int` variable; a failed one leaves the sentinel -1. */
  function DesktopFocusChange(reply: Option<u32>): (desktop: i32)
    ensures reply.Some? ==> ToUint32(desktop) == reply.value
    ensures reply.None? ==> ToUint32(desktop) == ALL_DESKTOPS
  {
    match reply
    case Some(d) => Int32RoundTrip(d, 0); ToInt32(d)
    case None => -1
  }

  /** The sentinel cannot be told apart from a server that reports the
      all-desktops value as the current desktop. */
  lemma SentinelIsAllDesktops()
    ensures DesktopFocusChange(None) == DesktopFocusChange(Some(ALL_DESKTOPS)) == -1
  {
  }

  /** Distinct reported desktops are tracked as distinct values. */
  lemma DesktopTrackingIsInjective(d1: u32, d2: u32)
    ensures DesktopFocusChange(Some(d1)) == DesktopFocusChange(Some(d2)) ==> d1 == d2
  {
  }

  /** What `task_focus_change` returns, with the `focused_task` it leaves behind. */
  datatype FocusChange = FocusChange(status: int, focused: Window)

  /** `task_focus_change`: on a successful `_NET_ACTIVE_WINDOW` query it records the
      active window and returns 0; on a failed one it returns 1 and leaves the
      recorded window alone. */
  function TaskFocusChange(reply: Option<Window>, focused: Window): (r: FocusChange)
    ensures r.status == 0 || r.status == 1
    ensures r.status == 0 <==> reply.Some?
    ensures reply.Some? ==> r.focused == reply.value
    ensures reply.None? ==> r.focused == focused
  {
    match reply
    case Some(w) => FocusChange(0, w)
    case None => FocusChange(1, focused)
  }
}

=== FILE: xtypes.dfy ===
/** Value types shared by the model of the blurmybackground agent: the fixed-width
    integers the C code computes with, the EWMH atoms it compares against, the
    events the X server delivers, and the answers the server gives to the queries
    the agent issues. */
module XTypes {

  const TWO_32: int := 0x1_0000_0000

  /** C `uint32_t`. */
  newtype u32 = x: int | 0 <= x < 0x1_0000_0000

  /** C `int` (32-bit two's complement on every platform X11 runs on). */
  newtype i32 = x: int | -0x8000_0000 <= x < 0x8000_0000

  /** C `uint8_t`, the type of an event's `response_type`. */
  newtype u8 = x: int | 0 <= x < 0x100

  /** `xcb_window_t` and `xcb_atom_t` are both 32-bit resource ids. */
  type Window = u32
  type Atom = u32

  /** The `_NET_WM_DESKTOP` value EWMH reserves for a window shown on all desktops. */
  const ALL_DESKTOPS: u32 := 0xFFFF_FFFF

  datatype Option<+T> = None | Some(value: T)

  /** C's conversion of an `int` to `uint32_t`: the value congruent to it modulo 2^32. */
  function ToUint32(x: i32): (r: u32)
    ensures (r as int - x as int) % TWO_32 == 0
  {
    if x < 0 then (x as int + TWO_32) as u32 else x as int as u32
  }

  /** Reading, as an `int`, the object an EWMH reply wrote a `uint32_t` into:
      the two's-complement value with the same 32 bits. */
  function ToInt32(d: u32): (r: i32)
    ensures (d as int - r as int) % TWO_32 == 0
  {
    if d as int >= 0x8000_0000 then (d as int - TWO_32) as i32 else d as int as i32
  }

  /** A desktop number survives the trip through the `int` variable unchanged,
      and so does every `int`. */
  lemma Int32RoundTrip(d: u32, x: i32)
    ensures ToUint32(ToInt32(d)) == d
    ensures ToInt32(ToUint32(x)) == x
  {
  }

  /** The interned atoms of the `xcb_ewmh_connection_t` the agent reads. */
  datatype EwmhAtoms = EwmhAtoms(
    currentDesktop: Atom,  // _NET_CURRENT_DESKTOP
    clientList: Atom,      // _NET_CLIENT_LIST
    activeWindow: Atom,    // _NET_ACTIVE_WINDOW
    wmState: Atom,         // _NET_WM_STATE
    wmStateHidden: Atom)   // _NET_WM_STATE_HIDDEN
  {
    /** The X server interns distinct names as distinct atoms. */
    predicate Distinct()
    {
      && currentDesktop != clientList && currentDesktop != activeWindow
      && currentDesktop != wmState && clientList != activeWindow
      && clientList != wmState && activeWindow != wmState
    }
  }

  /** What the X server answers, at one moment, to each query the agent issues.
      A `None`, or a window missing from a map, is a query whose reply function
      does not return 1. */
  datatype Server = Server(
    currentDesktop: Option<u32>,        // _NET_CURRENT_DESKTOP of the root
    activeWindow: Option<Window>,       // _NET_ACTIVE_WINDOW of the root
    clientList: Option<seq<Window>>,    // _NET_CLIENT_LIST of the root
    wmDesktop: map<Window, u32>,        // _NET_WM_DESKTOP per window
    wmState: map<Window, seq<Atom>>)    // _NET_WM_STATE per window
  {
    function WmDesktopOf(w: Window): Option<u32>
    {
      if w in wmDesktop then Some(wmDesktop[w]) else None
    }

    function WmStateOf(w: Window): Option<seq<Atom>>
    {
      if w in wmState then Some(wmState[w]) else None
    }
  }

  /** `XCB_PROPERTY_NOTIFY`. */
  const PROPERTY_NOTIFY: int := 28

  /** An event as `xcb_poll_for_event` hands it over. `window` and `atom` are the
      fields of `xcb_property_notify_event_t`; they mean nothing for other kinds. */
  datatype XEvent = XEvent(responseType: u8, window: Window, atom: Atom)
  {
    /** `XCB_EVENT_RESPONSE_TYPE`: the response type without the send-event bit 0x80. */
    function Kind(): int
    {
      responseType as int % 0x80
    }
  }
}
